=== FILE: README.md ===
# Ball logic of a soccer game and the player tick of Cavern, in Dafny

This project models two small sequential entity-update cores from a collection
of Rust ports of arcade games, and proves properties of the models.

**Soccer ball** (`soccer-fyrox/src/ball.rs`, modules `SoccerWorld`,
`SoccerPhysics`, `SoccerTargeting`, `SoccerBall`). The ball moves freely with
per-axis bouncing and drag, or is dribbled by the player who owns it. Every
tick the ball update

1. decrements the ball's hold-off timer;
2. if the ball is owned, eases it towards a point just ahead of the owner, and
   the owner loses it when that point leaves the pitch and both goals;
3. if the ball is free, runs one physics step per axis, with each axis's
   bounds chosen from the other axis's position (pitch, or goal channel);
4. copies the ball position to its shadow;
5. scans the player pool for a player who takes the ball.

Also modelled are the kick-step estimator `steps`, the smoothing average
`avg`, and the pass heuristic `targetable`. Positions and velocities are
`real`; the source's `f32` rounding is not modelled. The player pool is a
`seq<Player>`, and a player handle is an index into it.

**Cavern player** (`cavern-macroquad-naive/src/player.rs`, module
`CavernPlayer`). This is the integer state machine of `Player::reset` and
`Player::update`:

- the fire and hurt timers, and the cap on the hurt timer once the player has landed;
- firing orbs (at most five alive, x clamped to [70, 730]);
- blowing the current orb, and jumping;
- losing a life and respawning;
- the choice of sprite.

Key state arrives as booleans.

Code that is not part of this model arrives as function-valued parameters:

- for the soccer ball (`Geometry`): `sin`, `cos`, `angle_to_vec`, `safe_normalise`, `norm` and `Rect::collidepoint`;
- for Cavern (`Motion`): `GravityActor::update`, `move_` and `top()`.

No property of the `Geometry` functions is assumed. The types of the `Motion`
functions do fix what the unseen Cavern code may write (see "## Left out"). The prelude constants of the soccer
game (`DRAG`, `KICK_STRENGTH`, `DRIBBLE_DIST_*`, `HALF_*`, `GOAL_*`) are fields
of a `Config` record. `ValidConfig` gives them the ranges the geometry relies on
(`0 < DRAG < 1`; the goal mouth no wider than the pitch; non-negative goal depth).

## Behaviour as written

The acquisition scan (`soccer-fyrox/src/ball.rs:211-237`) behaves as follows,
and the model follows it:

- The owner's team is captured once, before the scan (`ball.rs:211-213`).
- The loop has no `break`, so the **last** eligible player in pool order ends up as owner.
- Every eligible player becomes its team's controllable player in turn (`ball.rs:235`). So each team with an eligible player ends with the last of them, even a team whose player did not keep the ball.
- Only the pre-scan owner, which is held out of the pool during the scan, is put on hold-off when the ball changes hands.

The comment at `ball.rs:217-218` says that a player "on the other team from the
owner" can acquire the ball. Because the team is never re-read, a team-mate of
a tackler who has just taken the ball can take it from them later in the same
scan. `SoccerBall.TeamMateTakesOver` proves this on a concrete tick, and
`SoccerBall.BothTeamsTouchFreeBall` shows a team's controllable player
changing to a player who did not keep the ball.

The interception test of `targetable` compares the interceptor with the
**target's** team (`ball.rs:75`), and so does the model.

`ball.timer` is written on every tick but read nowhere in `ball.rs`.

In the Cavern player, the orb being blown is a copy of the orb pushed to
`orbs`: `Orb` values are copied at `player.rs:120-121`. Holding space changes
only the player's copy, and `CavernPlayer.BlowingLeavesOrbsInPlay` states
that the orbs in play never depend on it.

## Model

| member | source | states |
|---|---|---|
| SoccerWorld.GoalBoundsX | soccer-fyrox/src/ball.rs:3-6 | under the valid ranges the goal-mouth X interval lies inside the pitch's X interval |
| SoccerWorld.GoalBoundsY | soccer-fyrox/src/ball.rs:4-10 | under the valid ranges the goal-depth Y interval contains the pitch's Y interval |
| SoccerPhysics.AxisStep | soccer-fyrox/src/ball.rs:27-38 | in bounds after the move: position + velocity and damped velocity; out of bounds: the position is unchanged and the velocity reversed and damped; a position inside the bounds stays inside; the speed never grows and a non-zero speed strictly shrinks |
| SoccerPhysics.Steps | soccer-fyrox/src/ball.rs:41-51 | the loop terminates and computes `StepsFrom` from `KICK_STRENGTH`; it returns 0 when the distance is not positive or the kick is at most 0.25; the count fits the `u16` result for distances below 16383 |
| SoccerPhysics.StepsIsFirstStop | soccer-fyrox/src/ball.rs:45-48 | the count is the first tick at which the distance travelled reaches the target distance or the speed has decayed to 0.25; at every earlier tick neither held |
| SoccerPhysics.StepsZero | soccer-fyrox/src/ball.rs:46 | the count is 0 exactly when the distance is not positive or the speed is at most 0.25 |
| SoccerPhysics.StepsMonotone | soccer-fyrox/src/ball.rs:41-51 | the count is non-decreasing in the distance |
| SoccerPhysics.StepsBound | soccer-fyrox/src/ball.rs:46-47 | at most four ticks per unit of distance, whatever the drag (the termination argument) |
| SoccerPhysics.Avg | soccer-fyrox/src/ball.rs:92-98 | within 1 of the second argument the result is the second argument, otherwise it is the midpoint; either way it lies between the two and is at least twice as close to the second as the first was |
| SoccerPhysics.AvgSettles | soccer-fyrox/src/ball.rs:90-98 | repeated averaging towards a fixed target reaches it exactly after finitely many steps (the snap) and stays there |
| SoccerTargeting.Intercepted | soccer-fyrox/src/ball.rs:63-78 | the pool scan finds an interceptor exactly when some player in the pool is one |
| SoccerTargeting.Targetable | soccer-fyrox/src/ball.rs:55-88 | false whenever the teams differ, the distance is not positive, or it is at least 300; for a human source, equal to the final conjunction alone; for a computer source, the final conjunction and no interceptor in the pool |
| SoccerTargeting.MorePlayersNeverHelp | soccer-fyrox/src/ball.rs:61-78 | adding players to the pool never turns a rejected pass into a sound one |
| SoccerTargeting.PoolOrderIrrelevant | soccer-fyrox/src/ball.rs:63-78 | the verdict does not depend on the order of the pool |
| SoccerBall.HoldOffBlocksCollide | soccer-fyrox/src/ball.rs:143-147 | a player whose timer is not negative never collides with the ball |
| SoccerBall.CarryPoint | soccer-fyrox/src/ball.rs:166-167 | each coordinate of the dribble position is at least twice as close to the point ahead of the owner as the ball was |
| SoccerBall.Dribble | soccer-fyrox/src/ball.rs:157-182 | carry point on the pitch: owner, velocity and players unchanged and the ball at the carry point; otherwise the owner is cleared, the ex-owner's timer is 60 (no other player changes), the velocity is `angle_to_vec(dir) * 3` and the position is unchanged; an owned ball always rests on the pitch |
| SoccerBall.Fly | soccer-fyrox/src/ball.rs:183-206 | the free-flight step keeps a ball that is inside the pitch width and the goal-to-goal length inside them, never increases either speed, and leaves owner and timer alone |
| SoccerBall.InNetStaysBetweenPosts | soccer-fyrox/src/ball.rs:186-193 | a ball beyond a goal line and between the posts stays between the posts |
| SoccerBall.WideOfGoalStaysOnPitch | soccer-fyrox/src/ball.rs:195-202 | a ball wide of the goal mouth and inside the goal lines stays inside the goal lines |
| SoccerBall.BetweenPostsReachesNet | soccer-fyrox/src/ball.rs:195-205 | a ball in line with the goal mouth whose step ends between the back of one net and the back of the other makes that step, into the net if need be |
| SoccerBall.OnPitchReachesTouchline | soccer-fyrox/src/ball.rs:186-204 | a ball between the goal lines whose step ends inside the pitch width makes that step, all the way to the touchlines |
| SoccerBall.Move | soccer-fyrox/src/ball.rs:151-209 | before the scan the ball timer has dropped by exactly 1, the shadow equals the ball position, an owner can only be kept or cleared, and a free ball changes no player |
| SoccerBall.ScanPrefix | soccer-fyrox/src/ball.rs:216-237 | the fold over the pool keeps every handle (owner, teams' controllable players) inside the pool |
| SoccerBall.ScanLastWins | soccer-fyrox/src/ball.rs:211-237 | the ball changes hands exactly when some player is eligible (not the owner, not on the cached owner team, colliding); it then goes to the last eligible player and the ball timer becomes the hold-off; otherwise owner, timer and teams are unchanged |
| SoccerBall.ScanTeam | soccer-fyrox/src/ball.rs:216-237 | a team with an eligible player ends the scan with the last of them as controllable player, whether or not that player kept the ball; any other team is unchanged |
| SoccerBall.ScanTeams | soccer-fyrox/src/ball.rs:233-235 | the per-team outcome holds for every team at once, and the new owner is its team's controllable player |
| SoccerBall.Acquire | soccer-fyrox/src/ball.rs:211-241 | the scan and put-back keep the game well formed and leave ball position, velocity and shadow alone |
| SoccerBall.Update | soccer-fyrox/src/ball.rs:151-241 | one tick keeps every handle valid and the shadow on the ball |
| SoccerBall.UpdateAcquisition | soccer-fyrox/src/ball.rs:209-241 | over a whole tick: a new owner is the last eligible player and becomes its team's controllable player, the ball timer becomes the hold-off, and the pre-scan owner changes only in its timer, which becomes 60; with no eligible player the owner, players and teams are those before the scan and the ball timer only dropped by 1; each team with an eligible player ends with the last of them as controllable player and the other teams are unchanged; human flags never change; no other player changes |
| SoccerBall.LockoutNextTick | soccer-fyrox/src/ball.rs:216-241 | a player tackled off the ball cannot take it back on the next tick |
| SoccerBall.TeamMateTakesOver | soccer-fyrox/src/ball.rs:211-235 | on a concrete tick with two team-mates touching a ball owned by an opponent, the later one in the pool ends up with it and the earlier one is not put on hold-off |
| SoccerBall.BothTeamsTouchFreeBall | soccer-fyrox/src/ball.rs:216-237 | on a concrete tick with one player of each team touching a free ball, the later one takes it and the earlier one still becomes its team's controllable player |
| CavernPlayer.Reset | cavern-macroquad-naive/src/player.rs:53-62 | lives, score and the landed flag are kept; the player is back at (400, 100), still and facing right, with fire timer 0, hurt timer 100, health 3 and no orb being blown |
| CavernPlayer.ResetForgets | cavern-macroquad-naive/src/player.rs:53-62 | the result depends only on lives, score and the landed flag (which reset does not touch), so resetting is idempotent |
| CavernPlayer.Settle | cavern-macroquad-naive/src/player.rs:67-80 | gravity sets y, vertical speed and landed; both timers drop by exactly 1 and landing then caps the hurt timer at 100; nothing else changes |
| CavernPlayer.HurtStep | cavern-macroquad-naive/src/player.rs:82-95 | with health left the player is knocked one `move_` step along its facing and nothing else changes; with no health and the sprite at the respawn depth a life is lost and the player is reset; with no health above that depth nothing changes |
| CavernPlayer.Heading | cavern-macroquad-naive/src/player.rs:98-102 | left gives -1 (left wins over right), right alone gives 1, and neither gives 0 |
| CavernPlayer.Steer | cavern-macroquad-naive/src/player.rs:104-111 | an arrow key sets the facing; the player takes one `move_` step only while the fire timer is below 10, and keeps its x otherwise; only the facing and x ever change |
| CavernPlayer.Fire | cavern-macroquad-naive/src/player.rs:115-125 | when firing is allowed exactly one orb is appended, at x = clamp(x + 38 * direction, 70, 730) and 35 above the player, facing the player's way, with the starting blown frames; the old orbs are kept; the player changes only in the fire timer, which becomes 20, and the orb being blown, which is the new orb; otherwise nothing changes; at most five orbs stay at most five |
| CavernPlayer.Jump | cavern-macroquad-naive/src/player.rs:127-133 | with up held, no vertical speed and landed, only the vertical speed (to -16) and landed (to false) change; otherwise nothing changes |
| CavernPlayer.Blow | cavern-macroquad-naive/src/player.rs:136-149 | releasing space lets go of the orb; holding it adds 4 blown frames, and the orb is let go once it reaches 120; a kept orb is always below 120 frames; only the blown orb changes |
| CavernPlayer.ChooseSprite | cavern-macroquad-naive/src/player.rs:153-173 | the sprite is blank exactly when the hurt timer is positive and even; for a non-negative game timer the running frame is in 0..7 and the falling frame in 0..1 |
| CavernPlayer.NegativeTimerBreaksRunFrame | cavern-macroquad-naive/src/player.rs:169-171 | a negative game timer can give a negative running frame |
| CavernPlayer.Update | cavern-macroquad-naive/src/player.rs:64-174 | at most five orbs stay at most five, the score never changes, releasing space lets go of the orb, and the sprite is blank exactly on the frames where the final hurt timer is positive and even (a hurt player flashes) |
| CavernPlayer.UpdateTimersAndLives | cavern-macroquad-naive/src/player.rs:69-95 | the final fire timer is 0 on a respawn, 20 on firing, else one less; the hurt timer is 100 on a respawn, else one less and capped at 100 when landed; a life is lost exactly on a respawn, which leaves the player as reset leaves it |
| CavernPlayer.LandedIsNotHurt | cavern-macroquad-naive/src/player.rs:77-82 | a player that has landed never takes the hurt branch |
| CavernPlayer.UpdateOrbsAndJump | cavern-macroquad-naive/src/player.rs:113-133 | an orb is added exactly when not hurt, space was pressed, the fire timer is not positive and fewer than five orbs are alive, at 38 pixels in front of the player after its step (clamped to [70, 730]) and facing its new direction; a jump happens exactly when not hurt, up is held, the vertical speed is 0 and the player has landed |
| CavernPlayer.BlowingLeavesOrbsInPlay | cavern-macroquad-naive/src/player.rs:115-149 | holding or releasing space never changes the orbs in play |
| CavernPlayer.NoBackToBackFire | cavern-macroquad-naive/src/player.rs:115-124 | after a frame that fires an orb the next frame cannot fire |

## Left out

- `f32` arithmetic: positions, velocities and distances are exact reals, so rounding is not modelled.
- Integer widths: `i32` timers and the `u16` result of `steps` are unbounded integers. `Steps` shows that the result fits `u16` for distances below 16383; timers that keep counting down would wrap only after 2^31 frames.
- `sin`, `cos`, `angle_to_vec`, `safe_normalise`, `norm` and `Rect::collidepoint` are not part of this model. They are parameters, and `on_pitch` is a predicate over the three rectangles.
- Dribble: states the loose-ball velocity as `angle_to_vec(dir) * 3` but not that it is non-zero or points along the facing, because `angle_to_vec` is not part of this model.
- Prelude constants: the soccer constants are `Config` fields with stated ranges. Cavern's `WIDTH` and `HEIGHT` are taken as 800 and 480 from the crate root, which is not part of this model.
- Fyrox pool plumbing (`borrow_mut`, `take_reserve`, `put_back`, `handle_of`): handles are sequence indices, and the reserved owner is excluded from the scan.
- `Ball::new`, `Player::new`, the shadow `BareActor` beyond its position, textures, `img_base`/`img_indexes` and `storage::get::<Resources>`: sprite choice is a `Sprite` value.
- `GravityActor::update`, `move_` and `top()` are defined in files outside this model. They are `Motion` parameters; the boolean result of `move_` is ignored, as in the source.
- `GravityActor::update` is assumed to write only y, vel_y and landed, and `move_(dx, 0, 4)` only x. Both are defined outside this model, and the `Motion` types encode these assumptions. `Steer`, `HurtStep` and `UpdateOrbsAndJump` rely on them for the parts of the player they state unchanged.
- Panics: the model excludes by precondition the source's panics on a bad handle or team index. These are `game.teams[source.team as usize]` (`ball.rs:61`), `borrow_mut(owner_h)` (`ball.rs:158`), `take_reserve` (`ball.rs:213`) and `game.teams[target.team as usize]` (`ball.rs:235`). `Targetable` requires the source's team to exist. `WellFormed` requires the owner and every team's controllable player to be in the pool and every player's team to exist. This is more than `ball.rs` indexes, since it only indexes `teams` for the source and for eligible players. The game keeps these conditions, and the model does not cover what happens when they fail.
- `Orb::new` and every other part of `Orb` beyond its position, direction and blown frames: the initial blown-frame count is a parameter.
- Macroquad input, sounds and `eprint!` calls: keys are booleans, and sounds and logging have no effect on the state.

=== FILE: cavern_player.dfy ===
/**
 The Cavern player's per-frame logic (`Player::reset` and `Player::update`)
 as a pure integer state machine: the fire and hurt timers, the landing clamp
 on the hurt timer, firing orbs (at most five alive), blowing the current orb,
 jumping, losing a life and respawning, and the choice of sprite.

 Keyboard state is a parameter. Falling, horizontal movement and the sprite's
 top edge are computed by code that is not part of this model; they arrive as
 the function values of `Motion`.
 */
module CavernPlayer {
  import opened Options

  /** The screen size, defined in the crate root. */
  const Width: int := 800
  const Height: int := 480

  /** `(HEIGHT as f32 * 1.5) as i32`: the depth a falling player must reach
      before losing a life. */
  const RespawnDepth: int := Height * 3 / 2

  /** Frames of invulnerability after a respawn; above it the player is hurt. */
  const InvulnerableFrames: int := 100

  /** Frames between two orbs; horizontal movement pauses above 10. */
  const FireCooldown: int := 20

  const MaxOrbs: int := 5
  const OrbMinX: int := 70
  const OrbMaxX: int := 730
  const JumpVelocity: int := -16
  const BlowStep: int := 4
  const MaxBlownFrames: int := 120

  /** An orb; only the frames it has been blown for matter here. */
  datatype Orb = Orb(x: int, y: int, directionX: int, blownFrames: int)

  datatype Player = Player(
    lives: int,
    score: int,
    directionX: int,
    fireTimer: int,
    hurtTimer: int,
    health: int,
    blowingOrb: Option<Orb>,
    x: int,
    y: int,
    velY: int,
    landed: bool)

  /** The keys read this frame: held down, or (for space) newly pressed. */
  datatype Keys = Keys(left: bool, right: bool, up: bool, spaceDown: bool, spacePressed: bool)

  /** What `GravityActor::update` leaves behind. */
  datatype Fall = Fall(y: int, velY: int, landed: bool)

  /** The movement collaborators: `gravity` is `GravityActor::update` (with
      collision detection on or off), `stepX` is the resulting x of
      `move_(dx, 0, 4)`, and `top` is the sprite's top edge. Their types fix
      what they may write: gravity only y, vertical speed and the landed
      flag; a horizontal step only x. */
  datatype Motion = Motion(gravity: (Player, bool) -> Fall, stepX: (Player, int) -> int, top: Player -> int)

  /** The sprite chosen for the frame; indices select among the textures. */
  datatype Sprite = Blank | Recoil(dirIndex: int) | Falling(frame: int) | Blowing(dirIndex: int)
                  | Still | Running(frame: int)

  /** The result of one frame: the player, the orbs in play, and the sprite. */
  datatype Frame = Frame(player: Player, orbs: seq<Orb>, sprite: Sprite)

  function Min(a: int, b: int): int { if a <= b then a else b }

  function Clamp(v: int, lo: int, hi: int): int
    requires lo <= hi
  {
    if v < lo then lo else if v > hi then hi else v
  }

  /** Rust's `/` on `i32`, which truncates toward zero (Dafny's rounds down). */
  function TruncDiv(a: int, b: int): int
    requires b > 0
  {
    if a >= 0 then a / b else -((-a) / b)
  }

  /** Rust's `%` on `i32`, whose sign follows the dividend. */
  function TruncMod(a: int, b: int): int
    requires b > 0
  {
    a - b * TruncDiv(a, b)
  }

  /** `reset`: back at the spawn point, facing right, not firing, freshly
      invulnerable and with full health. */
  function Reset(p: Player): (r: Player)
    ensures r.lives == p.lives && r.score == p.score
    ensures r.fireTimer == 0 && r.hurtTimer == InvulnerableFrames && r.health == 3
    ensures r.blowingOrb.None? && r.x == Width / 2 && r.y == 100 && r.velY == 0 && r.directionX == 1
    ensures r.landed == p.landed
  {
    p.(x := Width / 2, y := 100, velY := 0, directionX := 1, fireTimer := 0,
       hurtTimer := InvulnerableFrames, health := 3, blowingOrb := None)
  }

  /** A reset forgets everything but the lives, the score and the landed
      flag (which `reset` does not touch); in particular resetting twice is
      resetting once. */
  lemma ResetForgets(p: Player, q: Player)
    requires p.lives == q.lives && p.score == q.score && p.landed == q.landed
    ensures Reset(p) == Reset(q)
    ensures Reset(Reset(p)) == Reset(p)
  {
  }

  /** Gravity, then both timers tick down by one, then landing caps the hurt
      timer at 100. */
  function Settle(m: Motion, p: Player): (r: Player)
    ensures r.landed ==> r.hurtTimer <= InvulnerableFrames
    ensures r.fireTimer == p.fireTimer - 1
    ensures r.hurtTimer == if r.landed then Min(p.hurtTimer - 1, InvulnerableFrames) else p.hurtTimer - 1
    ensures r.lives == p.lives && r.score == p.score && r.health == p.health
    ensures r == p.(y := r.y, velY := r.velY, landed := r.landed, fireTimer := r.fireTimer, hurtTimer := r.hurtTimer)
  {
    var f := m.gravity(p, p.health > 0);
    var fallen := p.(y := f.y, velY := f.velY, landed := f.landed);
    var ticked := fallen.(fireTimer := fallen.fireTimer - 1, hurtTimer := fallen.hurtTimer - 1);
    if ticked.landed then ticked.(hurtTimer := Min(ticked.hurtTimer, InvulnerableFrames)) else ticked
  }

  predicate Hurt(p: Player) { p.hurtTimer > InvulnerableFrames }

  /** The hurt branch: knocked sideways while health remains; with no health
      left, falling until deep enough below the screen, then a life is lost
      and the player respawns. */
  function HurtStep(m: Motion, p: Player): (r: Player)
    ensures p.health <= 0 && m.top(p) >= RespawnDepth ==> r == Reset(p.(lives := p.lives - 1))
    ensures !(p.health <= 0 && m.top(p) >= RespawnDepth) ==> r == p.(x := r.x)
    ensures p.health > 0 ==> r == p.(x := m.stepX(p, p.directionX))
    ensures p.health <= 0 && m.top(p) < RespawnDepth ==> r == p
  {
    if p.health > 0 then p.(x := m.stepX(p, p.directionX))
    else if m.top(p) >= RespawnDepth then Reset(p.(lives := p.lives - 1))
    else p
  }

  /** The direction the arrow keys ask for; left wins over right. */
  function Heading(keys: Keys): (dx: int)
    ensures dx in {-1, 0, 1}
    ensures dx == 0 <==> !keys.left && !keys.right
    ensures keys.left ==> dx == -1
    ensures !keys.left && keys.right ==> dx == 1
  {
    if keys.left then -1 else if keys.right then 1 else 0
  }

  /** Turning and walking: an arrow key sets the facing; the player walks
      unless an orb was fired within the last few frames. */
  function Steer(m: Motion, p: Player, dx: int): (r: Player)
    ensures r.fireTimer == p.fireTimer && r.hurtTimer == p.hurtTimer && r.y == p.y
    ensures r.velY == p.velY && r.landed == p.landed && r.blowingOrb == p.blowingOrb
    ensures dx != 0 ==> r.directionX == dx
    ensures dx != 0 && p.fireTimer < 10 ==> r.x == m.stepX(p.(directionX := dx), dx)
    ensures p.fireTimer >= 10 ==> r.x == p.x
    ensures dx == 0 ==> r == p
    ensures r == p.(directionX := r.directionX, x := r.x)
  {
    if dx != 0 then
      var turned := p.(directionX := dx);
      if turned.fireTimer < 10 then turned.(x := m.stepX(turned, dx)) else turned
    else
      p
  }

  /** The firing rule: space newly pressed, the cooldown over, and fewer than
      five orbs alive. */
  predicate CanFire(p: Player, orbs: seq<Orb>, keys: Keys) {
    keys.spacePressed && p.fireTimer <= 0 && |orbs| < MaxOrbs
  }

  /** Firing: a new orb 38 pixels in front of the player, kept inside the
      level, becomes the orb being blown and a copy of it joins the orbs in
      play; the cooldown restarts. `startFrames` is the blown-frame count a
      new orb starts with. */
  function Fire(p: Player, orbs: seq<Orb>, keys: Keys, startFrames: int): (r: (Player, seq<Orb>))
    ensures CanFire(p, orbs, keys) ==>
      && |r.1| == |orbs| + 1 && r.1[..|orbs|] == orbs
      && OrbMinX <= r.1[|orbs|].x <= OrbMaxX && r.1[|orbs|].y == p.y - 35
      && r.1[|orbs|].x == Clamp(p.x + p.directionX * 38, OrbMinX, OrbMaxX)
      && r.1[|orbs|].directionX == p.directionX && r.1[|orbs|].blownFrames == startFrames
      && r.0.fireTimer == FireCooldown && r.0.blowingOrb == Some(r.1[|orbs|])
    ensures CanFire(p, orbs, keys) ==> r.0 == p.(fireTimer := FireCooldown, blowingOrb := r.0.blowingOrb)
    ensures !CanFire(p, orbs, keys) ==> r == (p, orbs)
    ensures |orbs| <= MaxOrbs ==> |r.1| <= MaxOrbs
    ensures r.0.hurtTimer == p.hurtTimer && r.0.velY == p.velY && r.0.landed == p.landed
  {
    if CanFire(p, orbs, keys) then
      var x := Clamp(p.x + p.directionX * 38, OrbMinX, OrbMaxX);
      var orb := Orb(x, p.y - 35, p.directionX, startFrames);
      (p.(blowingOrb := Some(orb), fireTimer := FireCooldown), orbs + [orb])
    else
      (p, orbs)
  }

  /** The jump rule: up held while standing still on the ground. */
  function Jump(p: Player, keys: Keys): (r: Player)
    ensures (keys.up && p.velY == 0 && p.landed) ==> r == p.(velY := JumpVelocity, landed := false)
    ensures !(keys.up && p.velY == 0 && p.landed) ==> r == p
    ensures r.fireTimer == p.fireTimer && r.blowingOrb == p.blowingOrb
  {
    if keys.up && p.velY == 0 && p.landed then p.(velY := JumpVelocity, landed := false) else p
  }

  /** Blowing: with space held the player's own orb is blown four frames
      further and let go once it reaches 120; releasing space lets go of it.
      The orb kept by the player is always short of 120 frames. */
  function Blow(p: Player, keys: Keys): (r: Player)
    ensures !keys.spaceDown ==> r.blowingOrb.None?
    ensures keys.spaceDown && p.blowingOrb.Some? && p.blowingOrb.value.blownFrames + BlowStep < MaxBlownFrames ==>
      r.blowingOrb == Some(p.blowingOrb.value.(blownFrames := p.blowingOrb.value.blownFrames + BlowStep))
    ensures keys.spaceDown && p.blowingOrb.Some? && p.blowingOrb.value.blownFrames + BlowStep >= MaxBlownFrames ==>
      r.blowingOrb.None?
    ensures r.blowingOrb.Some? ==> r.blowingOrb.value.blownFrames < MaxBlownFrames
    ensures r.blowingOrb.Some? ==> p.blowingOrb.Some? && keys.spaceDown
    ensures r == p.(blowingOrb := r.blowingOrb)
  {
    if keys.spaceDown then
      match p.blowingOrb
      case None => p
      case Some(orb) =>
        var blown := orb.(blownFrames := orb.blownFrames + BlowStep);
        if blown.blownFrames >= MaxBlownFrames then p.(blowingOrb := None)
        else p.(blowingOrb := Some(blown))
    else
      p.(blowingOrb := None)
  }

  /** The sprite for the frame. While the hurt timer is positive and even the
      sprite stays blank, so a hurt player flashes. Texture indices stay in
      range whenever the game timer is not negative. */
  function ChooseSprite(p: Player, dx: int, gameTimer: int): (s: Sprite)
    ensures s == Blank <==> p.hurtTimer > 0 && p.hurtTimer % 2 == 0
    ensures s.Running? && gameTimer >= 0 ==> 0 <= s.frame <= 7
    ensures s.Falling? && gameTimer >= 0 ==> 0 <= s.frame <= 1
    ensures (s.Recoil? ==> 0 <= s.dirIndex <= 1) && (s.Blowing? ==> 0 <= s.dirIndex <= 1)
    ensures s.Running? ==> dx != 0 && p.fireTimer <= 0
  {
    if p.hurtTimer <= 0 || TruncMod(p.hurtTimer, 2) == 1 then
      var dirIndex := if p.directionX > 0 then 1 else 0;
      if Hurt(p) then
        if p.health > 0 then Recoil(dirIndex)
        else Falling(TruncMod(TruncDiv(gameTimer, 4), 2))
      else if p.fireTimer > 0 then Blowing(dirIndex)
      else if dx == 0 then Still
      else Running(dirIndex * 4 + TruncMod(TruncDiv(gameTimer, 8), 4))
    else
      Blank
  }

  /** A negative game timer would give a negative running frame, which the
      source turns into an out-of-range texture index. */
  lemma NegativeTimerBreaksRunFrame(p: Player)
    requires p.hurtTimer <= 0 && p.fireTimer <= 0 && p.directionX <= 0
    ensures ChooseSprite(p, -1, -8) == Running(-1)
  {
  }

  /** The control branch: steer, fire, jump. */
  function Act(m: Motion, p: Player, orbs: seq<Orb>, keys: Keys, startFrames: int): (r: (Player, seq<Orb>))
  {
    var steered := Steer(m, p, Heading(keys));
    var (fired, orbs') := Fire(steered, orbs, keys, startFrames);
    (Jump(fired, keys), orbs')
  }

  /** `Player::update`: one frame of the player. */
  function Update(m: Motion, p: Player, orbs: seq<Orb>, keys: Keys, gameTimer: int, startFrames: int): (r: Frame)
    ensures |orbs| <= MaxOrbs ==> |r.orbs| <= MaxOrbs
    ensures r.player.score == p.score
    ensures !keys.spaceDown ==> r.player.blowingOrb.None?
    ensures r.sprite == Blank <==> r.player.hurtTimer > 0 && r.player.hurtTimer % 2 == 0
  {
    var settled := Settle(m, p);
    var (acted, orbs', dx) :=
      if Hurt(settled) then
        (HurtStep(m, settled), orbs, 0)
      else
        var (q, os) := Act(m, settled, orbs, keys, startFrames);
        (q, os, Heading(keys));
    var blown := Blow(acted, keys);
    Frame(blown, orbs', ChooseSprite(blown, dx, gameTimer))
  }


  /** Respawning: a hurt player with no health left whose sprite has dropped
      to the respawn depth. */
  predicate Respawns(m: Motion, s: Player) {
    Hurt(s) && s.health <= 0 && m.top(s) >= RespawnDepth
  }

  /** Firing this frame, read off the state after `Settle` (turning and
      walking do not touch the fire timer). */
  predicate Fires(s: Player, orbs: seq<Orb>, keys: Keys) {
    !Hurt(s) && CanFire(s, orbs, keys)
  }

  /** The facing after the arrow keys: the key's direction, or the old facing. */
  function Facing(s: Player, keys: Keys): int {
    if Heading(keys) != 0 then Heading(keys) else s.directionX
  }

  /** The x after the arrow keys for a player whose fire cooldown is over:
      one `move_` step when an arrow key is held. */
  function WalkedX(m: Motion, s: Player, keys: Keys): int {
    if Heading(keys) != 0 then m.stepX(s.(directionX := Heading(keys)), Heading(keys)) else s.x
  }

  /** Jumping this frame, read off the state after `Settle`. */
  predicate Jumps(s: Player, keys: Keys) {
    !Hurt(s) && keys.up && s.velY == 0 && s.landed
  }

  /** The timers and the lives over one frame. Both timers first tick down by
      one; after that the fire timer changes only by firing (to 20) or by a
      respawn (to 0), and the hurt timer only by the landing cap or by a
      respawn (to 100). A life is lost exactly on a respawn, which leaves the
      player exactly as `reset` does. */
  lemma UpdateTimersAndLives(m: Motion, p: Player, orbs: seq<Orb>, keys: Keys, gameTimer: int, startFrames: int)
    ensures var s := Settle(m, p);
            var r := Update(m, p, orbs, keys, gameTimer, startFrames).player;
      && r.fireTimer == (if Respawns(m, s) then 0 else if Fires(s, orbs, keys) then FireCooldown else p.fireTimer - 1)
      && r.hurtTimer == (if Respawns(m, s) then InvulnerableFrames
                         else if s.landed then Min(p.hurtTimer - 1, InvulnerableFrames)
                         else p.hurtTimer - 1)
      && r.lives == (if Respawns(m, s) then p.lives - 1 else p.lives)
      && (Respawns(m, s) ==> r == Reset(s.(lives := p.lives - 1)))
  {
  }

  /** A landed player is never in the hurt branch: it neither recoils nor
      respawns that frame. */
  lemma LandedIsNotHurt(m: Motion, p: Player)
    requires m.gravity(p, p.health > 0).landed
    ensures !Hurt(Settle(m, p)) && !Respawns(m, Settle(m, p))
  {
  }

  /** Orbs and jumps over one frame. An orb is added exactly when firing is
      allowed; it lands in [70, 730] at 35 pixels above the player, and the
      orbs already in play are kept as they were. A jump happens exactly when
      up is held while standing on the ground, and gives an upward speed of
      16. */
  lemma UpdateOrbsAndJump(m: Motion, p: Player, orbs: seq<Orb>, keys: Keys, gameTimer: int, startFrames: int)
    ensures var s := Settle(m, p);
            var f := Update(m, p, orbs, keys, gameTimer, startFrames);
      && (Fires(s, orbs, keys) ==>
            && |f.orbs| == |orbs| + 1 && f.orbs[..|orbs|] == orbs
            && OrbMinX <= f.orbs[|orbs|].x <= OrbMaxX
            && f.orbs[|orbs|].x == Clamp(WalkedX(m, s, keys) + Facing(s, keys) * 38, OrbMinX, OrbMaxX)
            && f.orbs[|orbs|].directionX == Facing(s, keys)
            && f.orbs[|orbs|].y == s.y - 35
            && f.orbs[|orbs|].blownFrames == startFrames)
      && (!Fires(s, orbs, keys) ==> f.orbs == orbs)
      && (Jumps(s, keys) ==> f.player.velY == JumpVelocity && !f.player.landed)
      && (!Jumps(s, keys) && !Respawns(m, s) ==> f.player.velY == s.velY && f.player.landed == s.landed)
  {
  }

  /** The orb being blown is the player's own copy: holding or releasing
      space never changes the orbs in play. */
  lemma BlowingLeavesOrbsInPlay(m: Motion, p: Player, orbs: seq<Orb>, keys: Keys, gameTimer: int, startFrames: int)
    ensures Update(m, p, orbs, keys, gameTimer, startFrames).orbs
         == Update(m, p, orbs, keys.(spaceDown := !keys.spaceDown), gameTimer, startFrames).orbs
  {
  }

  /** After a frame that fires, the next frame cannot fire, whatever the keys
      and whatever the movement collaborators do. */
  lemma NoBackToBackFire(m: Motion, m': Motion, p: Player, orbs: seq<Orb>, keys: Keys,
                        keys': Keys, gameTimer: int, startFrames: int)
    requires Fires(Settle(m, p), orbs, keys)
    ensures var f := Update(m, p, orbs, keys, gameTimer, startFrames);
      Update(m', f.player, f.orbs, keys', gameTimer + 1, startFrames).orbs == f.orbs
  {
  }

}

=== FILE: options.dfy ===
/** The optional value used for ball owners, team control handles and the
    orb a player is currently blowing. */
module Options {

  datatype Option<+T> = None | Some(value: T)

}

=== FILE: soccer_ball.dfy ===
/**
 The ball and its per-tick update (`Ball::update`). The player pool is a
 sequence and a player handle is an index into it.

 A tick decrements the ball's timer, then either carries an owned ball ahead
 of its owner (losing it if the carry point leaves the pitch) or runs free
 flight on both axes, then copies the ball position to its shadow, and finally
 scans the pool for a player who takes the ball. The scan is a left fold over
 the pool in pool order with no early exit: the last qualifying player wins,
 and the owner's team it compares against is read once, before the scan.
 */
module SoccerBall {
  import opened Options
  import opened SoccerWorld
  import opened SoccerPhysics

  /** The hold-off stamped on a player who loses the ball. */
  const LostBallHoldOff: int := 60

  /** The speed given to a dribbled ball that leaves the pitch. */
  const LooseBallSpeed: real := 3.0

  /** `timer` is written on every tick but read nowhere in the ball logic;
      `shadow` is the position of the ball's shadow sprite. */
  datatype Ball = Ball(pos: Vec, vel: Vec, owner: Option<nat>, timer: int, shadow: Vec)

  /** What one tick reads and writes: the ball, the player pool, the teams,
      and the difficulty's hold-off for a ball that changes hands. */
  datatype Game = Game(ball: Ball, players: seq<Player>, teams: seq<Team>, holdoff: int)

  predicate ValidHandle(h: Option<nat>, players: seq<Player>) {
    h.Some? ==> h.value < |players|
  }

  /** Every handle points into the pool and every player's team exists. The
      game maintains these conditions; an owner handle outside the pool would
      make `borrow_mut` panic. */
  predicate WellFormed(s: Game) {
    && ValidHandle(s.ball.owner, s.players)
    && (forall i :: 0 <= i < |s.players| ==> s.players[i].team < |s.teams|)
    && (forall t :: 0 <= t < |s.teams| ==> ValidHandle(s.teams[t].activeControl, s.players))
  }

  /** `collide`: the player's hold-off has expired and it stands within the
      dribble distance of the ball. */
  predicate Collide(g: Geometry, c: Config, ball: Ball, p: Player) {
    p.timer < 0 && g.norm(Sub(p.pos, ball.pos)) <= c.dribbleDistX
  }

  /** A player still on hold-off cannot take the ball. */
  lemma HoldOffBlocksCollide(g: Geometry, c: Config, ball: Ball, p: Player)
    requires p.timer >= 0
    ensures !Collide(g, c, ball, p)
  {
  }

  /** The point just ahead of the owner along its facing, on an ellipse with
      semi-axes `DRIBBLE_DIST_X` and `DRIBBLE_DIST_Y`. */
  function CarryTarget(g: Geometry, c: Config, owner: Player): Vec {
    Vec(owner.pos.x + c.dribbleDistX * g.sin(owner.dir),
        owner.pos.y - c.dribbleDistY * g.cos(owner.dir))
  }

  /** The ball's next position while dribbled: each coordinate averaged with
      the carry target. */
  function CarryPoint(g: Geometry, c: Config, ball: Ball, owner: Player): (p: Vec)
    ensures Abs(p.x - CarryTarget(g, c, owner).x) <= Abs(CarryTarget(g, c, owner).x - ball.pos.x) / 2.0
    ensures Abs(p.y - CarryTarget(g, c, owner).y) <= Abs(CarryTarget(g, c, owner).y - ball.pos.y) / 2.0
  {
    var t := CarryTarget(g, c, owner);
    Vec(Avg(ball.pos.x, t.x), Avg(ball.pos.y, t.y))
  }

  /** The owned branch of the update. If the carry point is on the pitch the
      ball moves there and keeps its owner; otherwise the owner loses the ball,
      is put on hold-off, and the ball is knocked along the owner's facing.
      Either way an owned ball never rests off the pitch. */
  function Dribble(g: Geometry, c: Config, s: Game): (r: Game)
    requires WellFormed(s) && s.ball.owner.Some?
    ensures WellFormed(r)
    ensures r.teams == s.teams && r.holdoff == s.holdoff && |r.players| == |s.players|
    ensures r.ball.timer == s.ball.timer
    ensures var o := s.ball.owner.value;
            var p := CarryPoint(g, c, s.ball, s.players[o]);
      if OnPitch(g, c, p.x, p.y) then
        r.ball.owner == s.ball.owner && r.ball.pos == p && r.ball.vel == s.ball.vel
        && r.players == s.players
      else
        && r.ball.owner.None? && r.ball.pos == s.ball.pos
        && r.ball.vel == Scale(g.angleToVec(s.players[o].dir), LooseBallSpeed)
        && r.players[o] == s.players[o].(timer := LostBallHoldOff)
        && forall i :: 0 <= i < |s.players| && i != o ==> r.players[i] == s.players[i]
    ensures r.ball.owner.Some? ==> OnPitch(g, c, r.ball.pos.x, r.ball.pos.y)
  {
    var o := s.ball.owner.value;
    var owner := s.players[o];
    var p := CarryPoint(g, c, s.ball, owner);
    if OnPitch(g, c, p.x, p.y) then
      s.(ball := s.ball.(pos := p))
    else
      s.(ball := s.ball.(vel := Scale(g.angleToVec(owner.dir), LooseBallSpeed), owner := None),
         players := s.players[o := owner.(timer := LostBallHoldOff)])
  }

  /** The X bounds for free flight: the goal mouth once the ball is beyond a
      goal line, the pitch width otherwise. */
  function ChannelX(c: Config, pos: Vec): Bounds {
    if Abs(pos.y - c.halfLevelH) > c.halfPitchH then GoalBoundsX(c) else PitchBoundsX(c)
  }

  /** The Y bounds for free flight: through to the back of the net while the
      ball is in line with the goal mouth, the pitch length otherwise. */
  function ChannelY(c: Config, pos: Vec): Bounds {
    if Abs(pos.x - c.halfLevelW) < c.halfGoalW then GoalBoundsY(c) else PitchBoundsY(c)
  }

  /** The box no free-flight bound reaches beyond: the pitch width by the
      pitch length plus both goals. */
  predicate InArena(c: Config, pos: Vec) {
    Within(pos.x, PitchBoundsX(c)) && Within(pos.y, GoalBoundsY(c))
  }

  /** The free branch of the update: one `ball_physics` step per axis, each
      axis bounded according to the other axis's position before the step. A
      ball inside the arena stays inside it, and neither speed grows. */
  function Fly(c: Config, b: Ball): (r: Ball)
    ensures r.owner == b.owner && r.timer == b.timer && r.shadow == b.shadow
    ensures ValidConfig(c) && InArena(c, b.pos) ==> InArena(c, r.pos)
    ensures ValidConfig(c) ==> Abs(r.vel.x) <= Abs(b.vel.x) && Abs(r.vel.y) <= Abs(b.vel.y)
  {
    var xBounds := ChannelX(c, b.pos);
    var yBounds := ChannelY(c, b.pos);
    var (x, vx) := AxisStep(c, b.pos.x, b.vel.x, xBounds);
    var (y, vy) := AxisStep(c, b.pos.y, b.vel.y, yBounds);
    b.(pos := Vec(x, y), vel := Vec(vx, vy))
  }

  /** Beyond a goal line (inside a net) the ball stays between the posts: its
      X bounds are the goal mouth. */
  lemma InNetStaysBetweenPosts(c: Config, b: Ball)
    requires ValidConfig(c)
    requires Abs(b.pos.y - c.halfLevelH) > c.halfPitchH && Within(b.pos.x, GoalBoundsX(c))
    ensures Within(Fly(c, b).pos.x, GoalBoundsX(c))
  {
  }

  /** Wide of the goal mouth the ball stops at the goal lines: its Y bounds
      are the pitch length. */
  lemma WideOfGoalStaysOnPitch(c: Config, b: Ball)
    requires ValidConfig(c)
    requires Abs(b.pos.x - c.halfLevelW) >= c.halfGoalW && Within(b.pos.y, PitchBoundsY(c))
    ensures Within(Fly(c, b).pos.y, PitchBoundsY(c))
  {
  }

  /** In line with the goal mouth the ball may fly on into the net: its Y
      bounds reach the back of the net, so a step that ends there is taken. */
  lemma BetweenPostsReachesNet(c: Config, b: Ball)
    requires Abs(b.pos.x - c.halfLevelW) < c.halfGoalW && Within(b.pos.y + b.vel.y, GoalBoundsY(c))
    ensures Fly(c, b).pos.y == b.pos.y + b.vel.y
  {
  }

  /** Between the goal lines the ball may fly to the touchlines: its X bounds
      are the pitch width, so a step that ends inside it is taken. */
  lemma OnPitchReachesTouchline(c: Config, b: Ball)
    requires Abs(b.pos.y - c.halfLevelH) <= c.halfPitchH && Within(b.pos.x + b.vel.x, PitchBoundsX(c))
    ensures Fly(c, b).pos.x == b.pos.x + b.vel.x
  {
  }

  /** Everything the update does before the acquisition scan: the ball timer
      counts down, the ball is dribbled or flies, and the shadow follows it. */
  function Move(g: Geometry, c: Config, s: Game): (r: Game)
    requires WellFormed(s)
    ensures WellFormed(r)
    ensures r.teams == s.teams && r.holdoff == s.holdoff && |r.players| == |s.players|
    ensures r.ball.timer == s.ball.timer - 1
    ensures r.ball.shadow == r.ball.pos
    ensures r.ball.owner.Some? ==> r.ball.owner == s.ball.owner
    ensures s.ball.owner.None? ==> r.players == s.players
  {
    var s1 := s.(ball := s.ball.(timer := s.ball.timer - 1));
    var s2 := if s1.ball.owner.Some? then Dribble(g, c, s1) else s1.(ball := Fly(c, s1.ball));
    s2.(ball := s2.ball.(shadow := s2.ball.pos))
  }

  /** The owner's team as captured before the scan; it is not refreshed when
      the ball changes hands during the scan. */
  function CachedTeam(s: Game): Option<nat>
    requires ValidHandle(s.ball.owner, s.players)
  {
    if s.ball.owner.Some? then Some(s.players[s.ball.owner.value].team) else None
  }

  /** Player `i` takes the ball during the scan: it is not the owner (who is
      out of the pool while the scan runs), it is not on the cached team, and
      it collides with the ball. */
  predicate Eligible(g: Geometry, c: Config, s: Game, i: nat)
    requires WellFormed(s) && i < |s.players|
  {
    && s.ball.owner != Some(i)
    && CachedTeam(s) != Some(s.players[i].team)
    && Collide(g, c, s.ball, s.players[i])
  }

  /** The state the scan threads through the pool: the owner so far, the ball
      timer, the teams, and whether the ball changed hands. */
  datatype Scan = Scan(owner: Option<nat>, ballTimer: int, teams: seq<Team>, transferred: bool)

  /** The scan over the first `k` players of the pool, as a left fold: each
      eligible player takes the ball, becomes its team's controllable player
      and sets the ball timer to the difficulty's hold-off. */
  function ScanPrefix(g: Geometry, c: Config, s: Game, k: nat): (r: Scan)
    requires WellFormed(s) && k <= |s.players|
    ensures |r.teams| == |s.teams|
    ensures ValidHandle(r.owner, s.players)
    ensures forall t :: 0 <= t < |r.teams| ==> ValidHandle(r.teams[t].activeControl, s.players)
    decreases k
  {
    if k == 0 then Scan(s.ball.owner, s.ball.timer, s.teams, false)
    else
      var acc := ScanPrefix(g, c, s, k - 1);
      var i := k - 1;
      if Eligible(g, c, s, i) then
        var t := s.players[i].team;
        Scan(Some(i), s.holdoff, acc.teams[t := acc.teams[t].(activeControl := Some(i))], true)
      else
        acc
  }

  /** The scan's outcome: the ball changes hands exactly when some player is
      eligible; it then goes to the LAST eligible player in pool order and the
      ball timer becomes the hold-off; otherwise nothing changes. */
  lemma {:induction false} ScanLastWins(g: Geometry, c: Config, s: Game, k: nat)
    requires WellFormed(s) && k <= |s.players|
    ensures var r := ScanPrefix(g, c, s, k);
      && (r.transferred <==> exists j :: 0 <= j < k && Eligible(g, c, s, j))
      && (r.transferred ==>
            && r.owner.Some? && r.owner.value < k
            && Eligible(g, c, s, r.owner.value)
            && (forall j :: r.owner.value < j < k ==> !Eligible(g, c, s, j))
            && r.ballTimer == s.holdoff)
      && (!r.transferred ==> r.owner == s.ball.owner && r.ballTimer == s.ball.timer && r.teams == s.teams)
    decreases k
  {
    if k > 0 {
      ScanLastWins(g, c, s, k - 1);
    }
  }

  /** Some player of team `t` among the first `k` of the pool is eligible. */
  predicate TeamTouched(g: Geometry, c: Config, s: Game, k: nat, t: nat)
    requires WellFormed(s) && k <= |s.players|
  {
    exists j :: 0 <= j < k && Eligible(g, c, s, j) && s.players[j].team == t
  }

  /** `j` is the last eligible player of team `t` among the first `k`. */
  predicate LastOfTeam(g: Geometry, c: Config, s: Game, k: nat, t: nat, j: nat)
    requires WellFormed(s) && k <= |s.players|
  {
    && j < k && Eligible(g, c, s, j) && s.players[j].team == t
    && forall i :: j < i < k && Eligible(g, c, s, i) ==> s.players[i].team != t
  }

  /** The scan's step at player `k - 1`, seen from team `t`: the team's
      controllable player becomes `k - 1` exactly when that player is an
      eligible member of the team. */
  lemma ScanTeamAt(g: Geometry, c: Config, s: Game, k: nat, t: nat)
    requires WellFormed(s) && 0 < k <= |s.players| && t < |s.teams|
    ensures ScanPrefix(g, c, s, k).teams[t]
         == if Eligible(g, c, s, k - 1) && s.players[k - 1].team == t
            then ScanPrefix(g, c, s, k - 1).teams[t].(activeControl := Some(k - 1))
            else ScanPrefix(g, c, s, k - 1).teams[t]
  {
  }

  /** A last eligible member of team `t` among the first `k - 1` stays the
      last among the first `k` unless player `k - 1` is one too. */
  lemma LastOfTeamExtend(g: Geometry, c: Config, s: Game, k: nat, t: nat, j: nat)
    requires WellFormed(s) && 0 < k <= |s.players|
    requires LastOfTeam(g, c, s, k - 1, t, j)
    requires !(Eligible(g, c, s, k - 1) && s.players[k - 1].team == t)
    ensures LastOfTeam(g, c, s, k, t, j)
  {
  }

  /** One step of the scan for one team: what `ScanTeam` states about the
      first `k - 1` players carries over to the first `k`. */
  lemma ScanTeamStep(g: Geometry, c: Config, s: Game, k: nat, t: nat)
    requires WellFormed(s) && 0 < k <= |s.players| && t < |s.teams|
    requires var acc := ScanPrefix(g, c, s, k - 1);
      && (TeamTouched(g, c, s, k - 1, t) ==>
            exists j: nat :: LastOfTeam(g, c, s, k - 1, t, j) && acc.teams[t] == s.teams[t].(activeControl := Some(j)))
      && (!TeamTouched(g, c, s, k - 1, t) ==> acc.teams[t] == s.teams[t])
    ensures var r := ScanPrefix(g, c, s, k);
      && (TeamTouched(g, c, s, k, t) ==>
            exists j: nat :: LastOfTeam(g, c, s, k, t, j) && r.teams[t] == s.teams[t].(activeControl := Some(j)))
      && (!TeamTouched(g, c, s, k, t) ==> r.teams[t] == s.teams[t])
  {
    var i := k - 1;
    var acc := ScanPrefix(g, c, s, k - 1);
    ScanTeamAt(g, c, s, k, t);
    if Eligible(g, c, s, i) && s.players[i].team == t {
      assert LastOfTeam(g, c, s, k, t, i);
    } else if TeamTouched(g, c, s, k - 1, t) {
      var j: nat :| LastOfTeam(g, c, s, k - 1, t, j) && acc.teams[t] == s.teams[t].(activeControl := Some(j));
      LastOfTeamExtend(g, c, s, k, t, j);
    } else {
      assert !TeamTouched(g, c, s, k, t);
    }
  }

  /** The scan's effect on one team: with an eligible player of its own it
      ends with the LAST of them as controllable player, whether or not that
      player kept the ball; otherwise it is unchanged. */
  lemma {:induction false} ScanTeam(g: Geometry, c: Config, s: Game, k: nat, t: nat)
    requires WellFormed(s) && k <= |s.players| && t < |s.teams|
    ensures var r := ScanPrefix(g, c, s, k);
      && (TeamTouched(g, c, s, k, t) ==>
            exists j: nat :: LastOfTeam(g, c, s, k, t, j) && r.teams[t] == s.teams[t].(activeControl := Some(j)))
      && (!TeamTouched(g, c, s, k, t) ==> r.teams[t] == s.teams[t])
    decreases k
  {
    if k > 0 {
      ScanTeam(g, c, s, k - 1, t);
      ScanTeamStep(g, c, s, k, t);
    }
  }

  /** The scan's effect on all teams (see `ScanTeam`); in addition the new
      owner is its team's controllable player. */
  lemma ScanTeams(g: Geometry, c: Config, s: Game, k: nat)
    requires WellFormed(s) && k <= |s.players|
    ensures var r := ScanPrefix(g, c, s, k);
      && (forall t: nat :: t < |s.teams| && TeamTouched(g, c, s, k, t) ==>
            exists j: nat :: LastOfTeam(g, c, s, k, t, j) && r.teams[t] == s.teams[t].(activeControl := Some(j)))
      && (forall t: nat :: t < |s.teams| && !TeamTouched(g, c, s, k, t) ==> r.teams[t] == s.teams[t])
      && (r.transferred ==> r.owner.Some? && r.teams[s.players[r.owner.value].team].activeControl == r.owner)
  {
    var r := ScanPrefix(g, c, s, k);
    forall t: nat | t < |s.teams|
      ensures TeamTouched(g, c, s, k, t) ==>
            exists j: nat :: LastOfTeam(g, c, s, k, t, j) && r.teams[t] == s.teams[t].(activeControl := Some(j))
      ensures !TeamTouched(g, c, s, k, t) ==> r.teams[t] == s.teams[t]
    {
      ScanTeam(g, c, s, k, t);
    }
    ScanLastWins(g, c, s, k);
    if r.transferred {
      var o := r.owner.value;
      var t := s.players[o].team;
      assert LastOfTeam(g, c, s, k, t, o);
      ScanTeam(g, c, s, k, t);
      var j: nat :| LastOfTeam(g, c, s, k, t, j) && r.teams[t] == s.teams[t].(activeControl := Some(j));
      assert j == o;
    }
  }

  /** The acquisition scan and its epilogue: a transfer puts the pre-scan
      owner (if any) on hold-off when it goes back into the pool. */
  function Acquire(g: Geometry, c: Config, s: Game): (r: Game)
    requires WellFormed(s)
    ensures WellFormed(r)
    ensures r.holdoff == s.holdoff && |r.players| == |s.players| && |r.teams| == |s.teams|
    ensures r.ball.pos == s.ball.pos && r.ball.vel == s.ball.vel && r.ball.shadow == s.ball.shadow
  {
    var sc := ScanPrefix(g, c, s, |s.players|);
    var players :=
      if sc.transferred && s.ball.owner.Some? then
        s.players[s.ball.owner.value := s.players[s.ball.owner.value].(timer := LostBallHoldOff)]
      else
        s.players;
    s.(ball := s.ball.(owner := sc.owner, timer := sc.ballTimer), players := players, teams := sc.teams)
  }

  /** `Ball::update`: one tick of the ball. */
  function Update(g: Geometry, c: Config, s: Game): (r: Game)
    requires WellFormed(s)
    ensures WellFormed(r)
    ensures r.holdoff == s.holdoff && |r.players| == |s.players| && |r.teams| == |s.teams|
    ensures r.ball.shadow == r.ball.pos
    ensures r.ball.pos == Move(g, c, s).ball.pos && r.ball.vel == Move(g, c, s).ball.vel
  {
    Acquire(g, c, Move(g, c, s))
  }

  /** The acquisition half of a tick, stated on the whole update against the
      state `m` the scan starts from. A new owner must be eligible (outside the
      cached team, off hold-off, within dribble distance) and no later player
      in the pool is; it becomes its team's controllable player, the ball
      timer becomes the hold-off, and the pre-scan owner is put on hold-off.
      With no eligible player the owner, the players and the teams are those
      of `m` and the ball timer has only counted down. Each team with an
      eligible player ends with the last of them as controllable player; the
      other teams are unchanged. */
  lemma UpdateAcquisition(g: Geometry, c: Config, s: Game)
    requires WellFormed(s)
    ensures var m := Move(g, c, s);
            var r := Update(g, c, s);
      && (forall t :: 0 <= t < |s.teams| ==> r.teams[t].human == s.teams[t].human)
      && (forall t: nat :: t < |s.teams| && TeamTouched(g, c, m, |m.players|, t) ==>
            exists j: nat :: LastOfTeam(g, c, m, |m.players|, t, j)
                             && r.teams[t] == s.teams[t].(activeControl := Some(j)))
      && (forall t: nat :: t < |s.teams| && !TeamTouched(g, c, m, |m.players|, t) ==> r.teams[t] == s.teams[t])
      && ((exists j :: 0 <= j < |m.players| && Eligible(g, c, m, j)) ==>
            && r.ball.owner.Some?
            && Eligible(g, c, m, r.ball.owner.value)
            && (forall j :: r.ball.owner.value < j < |m.players| ==> !Eligible(g, c, m, j))
            && r.ball.timer == s.holdoff
            && r.teams[m.players[r.ball.owner.value].team].activeControl == r.ball.owner
            && (m.ball.owner.Some? ==>
                  r.players[m.ball.owner.value] == m.players[m.ball.owner.value].(timer := LostBallHoldOff)))
      && ((forall j :: 0 <= j < |m.players| ==> !Eligible(g, c, m, j)) ==>
            && r.ball.owner == m.ball.owner
            && r.ball.timer == s.ball.timer - 1
            && r.players == m.players
            && r.teams == s.teams)
      && (forall j :: 0 <= j < |m.players| && m.ball.owner != Some(j) ==> r.players[j] == m.players[j])
  {
    var m := Move(g, c, s);
    ScanLastWins(g, c, m, |m.players|);
    ScanTeams(g, c, m, |m.players|);
  }

  /** Re-acquisition lockout: a player who just lost the ball to a tackle
      cannot take it back on the very next tick (as long as nothing else
      lowers its timer in between). */
  lemma LockoutNextTick(g: Geometry, c: Config, s: Game)
    requires WellFormed(s)
    requires Move(g, c, s).ball.owner.Some?
    requires Update(g, c, s).ball.owner != Move(g, c, s).ball.owner
    ensures Update(g, c, Update(g, c, s)).ball.owner != Move(g, c, s).ball.owner
  {
    var m := Move(g, c, s);
    var o := m.ball.owner.value;
    var r := Update(g, c, s);
    UpdateAcquisition(g, c, s);
    assert r.players[o].timer == LostBallHoldOff;
    var m2 := Move(g, c, r);
    assert m2.ball.owner != Some(o);
    assert m2.players[o] == r.players[o];
    HoldOffBlocksCollide(g, c, m2.ball, m2.players[o]);
    assert !Eligible(g, c, m2, o);
    UpdateAcquisition(g, c, r);
  }


  /** A geometry in which every player is touching the ball and every point
      is on the pitch. */
  function TouchingGeometry(): Geometry {
    Geometry(a => 0.0, a => 1.0, a => Vec(1.0, 0.0), v => (Vec(0.0, 0.0), 0.0),
             v => 0.0, (rect, x, y) => true)
  }

  /** A tick whose scan shows the as-written behaviour: player 0 of team 1
      dribbles, and players 1 and 2, both of team 0, touch the ball. Player 1
      takes it, then player 2 takes it from its own team-mate, because the
      scan still compares against team 1; player 1 is not put on hold-off,
      only the pre-scan owner is. */
  lemma TeamMateTakesOver()
    ensures var p := Player(Vec(500.0, 700.0), 0.0, 1, -1);
            var q := Player(Vec(500.0, 700.0), 0.0, 0, -1);
            var s := Game(Ball(Vec(500.0, 700.0), Vec(0.0, 0.0), Some(0), 5, Vec(0.0, 0.0)),
                          [p, q, q], [Team(false, None), Team(false, Some(0))], 30);
            var r := Update(TouchingGeometry(), StandardConfig(), s);
      && r.ball.owner == Some(2)
      && r.ball.timer == 30
      && r.players == [p.(timer := 60), q, q]
      && r.teams[0].activeControl == Some(2)
      && r.teams[1].activeControl == Some(0)
  {
    var g := TouchingGeometry();
    var c := StandardConfig();
    var p := Player(Vec(500.0, 700.0), 0.0, 1, -1);
    var q := Player(Vec(500.0, 700.0), 0.0, 0, -1);
    var s := Game(Ball(Vec(500.0, 700.0), Vec(0.0, 0.0), Some(0), 5, Vec(0.0, 0.0)),
                  [p, q, q], [Team(false, None), Team(false, Some(0))], 30);
    var m := Move(g, c, s);
    assert m.ball.owner == Some(0);
    assert m.players == s.players && m.teams == s.teams && m.holdoff == 30;
    assert !Eligible(g, c, m, 0) && Eligible(g, c, m, 1) && Eligible(g, c, m, 2);
    assert ScanPrefix(g, c, m, 1) == Scan(Some(0), m.ball.timer, m.teams, false);
    assert ScanPrefix(g, c, m, 2).teams == [Team(false, Some(1)), Team(false, Some(0))];
    assert ScanPrefix(g, c, m, 3) == Scan(Some(2), 30, [Team(false, Some(2)), Team(false, Some(0))], true);
  }

  /** A free ball touched by one player of each team: the later one in the
      pool takes it, yet the earlier one still becomes its own team's
      controllable player. */
  lemma BothTeamsTouchFreeBall()
    ensures var p := Player(Vec(500.0, 700.0), 0.0, 0, -1);
            var q := Player(Vec(500.0, 700.0), 0.0, 1, -1);
            var s := Game(Ball(Vec(500.0, 700.0), Vec(0.0, 0.0), None, 5, Vec(0.0, 0.0)),
                          [p, q], [Team(true, None), Team(false, None)], 30);
            var r := Update(TouchingGeometry(), StandardConfig(), s);
      && r.ball.owner == Some(1)
      && r.teams == [Team(true, Some(0)), Team(false, Some(1))]
      && r.players == [p, q]
  {
    var g := TouchingGeometry();
    var c := StandardConfig();
    var p := Player(Vec(500.0, 700.0), 0.0, 0, -1);
    var q := Player(Vec(500.0, 700.0), 0.0, 1, -1);
    var s := Game(Ball(Vec(500.0, 700.0), Vec(0.0, 0.0), None, 5, Vec(0.0, 0.0)),
                  [p, q], [Team(true, None), Team(false, None)], 30);
    var m := Move(g, c, s);
    assert m.ball.owner.None?;
    assert m.players == s.players && m.teams == s.teams && m.holdoff == 30;
    assert Eligible(g, c, m, 0) && Eligible(g, c, m, 1);
    assert ScanPrefix(g, c, m, 1).teams == [Team(true, Some(0)), Team(false, None)];
    assert ScanPrefix(g, c, m, 2) == Scan(Some(1), 30, [Team(true, Some(0)), Team(false, Some(1))], true);
  }

}

=== FILE: soccer_physics.dfy ===
/**
 The ball's one-dimensional kinematics: the per-axis physics step with its
 bounce, the kick-step estimator, and the smoothing average used for dribbling.
 */
module SoccerPhysics {
  import opened SoccerWorld

  /** The drag applied to a velocity once per tick. */
  function Damp(c: Config, v: real): real { v * c.drag }

  /** One tick of free flight along one axis (`ball_physics`): move by the
      velocity; if that leaves the bounds, undo the move and reverse the
      velocity; then apply drag. */
  function AxisStep(c: Config, pos: real, vel: real, b: Bounds): (r: (real, real))
    ensures Within(pos + vel, b) ==> r == (pos + vel, Damp(c, vel))
    ensures !Within(pos + vel, b) ==> r == (pos, Damp(c, -vel))
    ensures Within(pos, b) ==> Within(r.0, b)
    ensures ValidConfig(c) ==> Abs(r.1) <= Abs(vel) && (vel != 0.0 ==> Abs(r.1) < Abs(vel))
  {
    var moved := pos + vel;
    if moved < b.lo || moved > b.hi then
      DragDamps(c, -vel);
      (moved - vel, Damp(c, -vel))
    else
      DragDamps(c, vel);
      (moved, Damp(c, vel))
  }

  /** Drag strictly shrinks every non-zero speed. */
  lemma DragDamps(c: Config, v: real)
    ensures ValidConfig(c) ==> Abs(Damp(c, v)) <= Abs(v) && (v != 0.0 ==> Abs(Damp(c, v)) < Abs(v))
  {
    if ValidConfig(c) {
      if v > 0.0 {
        assert v * c.drag < v * 1.0;
      } else if v < 0.0 {
        var w := -v;
        assert w * c.drag < w;
        assert w * c.drag > 0.0;
        assert Damp(c, v) == -(w * c.drag);
        assert Abs(Damp(c, v)) == w * c.drag;
      }
    }
  }

  /** The measure that bounds the kick simulation: every loop iteration removes
      more than a quarter unit of distance. */
  function DistanceMeasure(distance: real): nat {
    if distance > 0.0 then (distance * 4.0).Floor + 1 else 0
  }

  /** One simulated tick at a speed above 0.25 lowers the measure. */
  lemma MeasureDrops(distance: real, vel: real)
    requires distance > 0.0 && vel > 0.25
    ensures DistanceMeasure(distance - vel) < DistanceMeasure(distance)
  {
    var f := (distance * 4.0).Floor;
    assert (distance - vel) * 4.0 < distance * 4.0 - 1.0;
    assert ((distance - vel) * 4.0).Floor <= f - 1;
  }

  /** The measure grows with the distance. */
  lemma MeasureMonotone(d1: real, d2: real)
    requires d1 <= d2
    ensures DistanceMeasure(d1) <= DistanceMeasure(d2)
  {
    if d1 > 0.0 {
      assert (d1 * 4.0).Floor <= (d2 * 4.0).Floor;
    }
  }

  /** The number of ticks of the kick simulation started from `distance` still
      to cover and current velocity `vel`; the recursion mirrors the loop of
      `steps`. */
  function StepsFrom(c: Config, distance: real, vel: real): nat
    decreases DistanceMeasure(distance)
  {
    if distance > 0.0 && vel > 0.25 then
      MeasureDrops(distance, vel);
      1 + StepsFrom(c, distance - vel, Damp(c, vel))
    else
      0
  }

  /** The velocity `k` ticks after a kick of speed `vel`. */
  function VelocityAfter(c: Config, vel: real, k: nat): real
    decreases k
  {
    if k == 0 then vel else VelocityAfter(c, Damp(c, vel), k - 1)
  }

  /** The distance travelled during the first `k` ticks after a kick of speed `vel`. */
  function TravelledAfter(c: Config, vel: real, k: nat): real
    decreases k
  {
    if k == 0 then 0.0 else vel + TravelledAfter(c, Damp(c, vel), k - 1)
  }

  /** The estimator returns the first tick at which the ball has covered the
      distance or has slowed to at most 0.25; before it, neither held. */
  lemma {:induction false} StepsIsFirstStop(c: Config, distance: real, vel: real)
    ensures var n := StepsFrom(c, distance, vel);
      && (TravelledAfter(c, vel, n) >= distance || VelocityAfter(c, vel, n) <= 0.25)
      && forall i: nat :: i < n ==>
           TravelledAfter(c, vel, i) < distance && VelocityAfter(c, vel, i) > 0.25
    decreases DistanceMeasure(distance)
  {
    var n := StepsFrom(c, distance, vel);
    if distance > 0.0 && vel > 0.25 {
      MeasureDrops(distance, vel);
      StepsIsFirstStop(c, distance - vel, Damp(c, vel));
      forall i: nat | i < n
        ensures TravelledAfter(c, vel, i) < distance && VelocityAfter(c, vel, i) > 0.25
      {
        if i > 0 {
          assert TravelledAfter(c, vel, i) == vel + TravelledAfter(c, Damp(c, vel), i - 1);
          assert VelocityAfter(c, vel, i) == VelocityAfter(c, Damp(c, vel), i - 1);
        }
      }
      assert TravelledAfter(c, vel, n) == vel + TravelledAfter(c, Damp(c, vel), n - 1);
    }
  }

  /** The count is bounded by four ticks per unit of distance, whatever the
      drag: every counted tick covers more than a quarter unit. */
  lemma {:induction false} StepsBound(c: Config, distance: real, vel: real)
    ensures StepsFrom(c, distance, vel) <= DistanceMeasure(distance)
    decreases DistanceMeasure(distance)
  {
    if distance > 0.0 && vel > 0.25 {
      MeasureDrops(distance, vel);
      StepsBound(c, distance - vel, Damp(c, vel));
    }
  }

  /** Nothing is simulated when there is no distance to cover or the kick is
      already too slow; otherwise at least one tick is counted. */
  lemma StepsZero(c: Config, distance: real, vel: real)
    ensures StepsFrom(c, distance, vel) == 0 <==> distance <= 0.0 || vel <= 0.25
  {
  }

  /** A longer pass never needs fewer ticks. */
  lemma {:induction false} StepsMonotone(c: Config, d1: real, d2: real, vel: real)
    requires d1 <= d2
    ensures StepsFrom(c, d1, vel) <= StepsFrom(c, d2, vel)
    decreases DistanceMeasure(d2)
  {
    if d1 > 0.0 && vel > 0.25 {
      MeasureDrops(d2, vel);
      StepsMonotone(c, d1 - vel, d2 - vel, Damp(c, vel));
    }
  }

  /** `steps`: the loop of the source, counting ticks of a kick at
      `KICK_STRENGTH` until `distance` is covered or the ball nearly stops. */
  method Steps(c: Config, distance: real) returns (steps: nat)
    ensures steps == StepsFrom(c, distance, c.kickStrength)
    ensures distance <= 0.0 || c.kickStrength <= 0.25 ==> steps == 0
    ensures distance < 16383.0 ==> steps <= 65535
  {
    var d, v := distance, c.kickStrength;
    steps := 0;
    while d > 0.0 && v > 0.25
      invariant steps + StepsFrom(c, d, v) == StepsFrom(c, distance, c.kickStrength)
      decreases DistanceMeasure(d)
    {
      MeasureDrops(d, v);
      d, steps, v := d - v, steps + 1, Damp(c, v);
    }
    StepsBound(c, distance, c.kickStrength);
    if distance < 16383.0 {
      MeasureMonotone(distance, 16383.0);
    }
  }

  /** `avg`: snap to `b` when within one unit of it, otherwise take the
      midpoint. The result lies between the two and is at least twice as close
      to `b` as `a` was. */
  function Avg(a: real, b: real): (r: real)
    ensures Min(a, b) <= r <= Max(a, b)
    ensures Abs(r - b) <= Abs(b - a) / 2.0
    ensures Abs(b - a) < 1.0 ==> r == b
    ensures Abs(b - a) >= 1.0 ==> r == (a + b) / 2.0 && Abs(r - b) == Abs(b - a) / 2.0
  {
    if Abs(b - a) < 1.0 then b else (a + b) / 2.0
  }

  /** `a` after `n` successive averagings towards a fixed `b`. */
  function AvgIter(a: real, b: real, n: nat): real
    decreases n
  {
    if n == 0 then a else AvgIter(Avg(a, b), b, n - 1)
  }

  /** Against a target that stays put, repeated averaging reaches it exactly
      (it does not creep towards it forever) and then stays there. */
  lemma {:induction false} AvgSettles(a: real, b: real, n: nat)
    requires n > Abs(b - a).Floor
    ensures AvgIter(a, b, n) == b
    decreases n
  {
    var a' := Avg(a, b);
    if Abs(b - a) < 1.0 {
      assert a' == b;
      if n > 1 {
        AvgSettles(a', b, n - 1);
      }
    } else {
      assert Abs(b - a') == Abs(b - a) / 2.0;
      assert Abs(b - a').Floor < Abs(b - a).Floor;
      AvgSettles(a', b, n - 1);
    }
  }

}

=== FILE: soccer_targeting.dfy ===
/**
 The pass heuristic `targetable`: whether `target` (a player, or a goal
 labelled with a team) is a sound pass for `source`. A computer-controlled
 source first rejects passes that an opponent standing roughly in the line of
 the pass could intercept; every source then requires a team-mate ahead of it,
 in range, and roughly in the direction it faces.
 */
module SoccerTargeting {
  import opened SoccerWorld

  /** The longest pass considered, in world units. */
  const PassRange: real := 300.0

  /** The cosine threshold for "roughly the same direction". */
  const SameDirection: real := 0.8

  /** The unit vector and the distance from `source` to `target`. */
  function Toward(g: Geometry, source: Player, target: Player): (Vec, real) {
    g.safeNormalise(Sub(target.pos, source.pos))
  }

  /** `p` stands between `source` and `target`, at a similar angle, and plays
      for a team other than `target`'s: the code compares `p` with the target's
      team (ball.rs:75), not with the source's. */
  predicate Interceptor(g: Geometry, target: Player, source: Player, p: Player) {
    var (v0, d0) := Toward(g, source, target);
    var (v1, d1) := Toward(g, source, p);
    p.team != target.team && d1 > 0.0 && d1 < d0 && Dot(v0, v1) > SameDirection
  }

  /** The scan over the player pool, in pool order, stopping at the first
      interceptor; it finds one exactly when the pool holds one. */
  function Intercepted(g: Geometry, target: Player, source: Player, players: seq<Player>): (r: bool)
    ensures r <==> exists i :: 0 <= i < |players| && Interceptor(g, target, source, players[i])
  {
    if |players| == 0 then false
    else if Interceptor(g, target, source, players[0]) then true
    else
      var r := Intercepted(g, target, source, players[1..]);
      assert forall i :: 1 <= i < |players| ==> players[i] == players[1..][i - 1];
      r
  }

  /** The final test: a team-mate, not at the source's own position, within
      range, and roughly where the source is facing. */
  predicate OpenLane(g: Geometry, target: Player, source: Player) {
    var (v0, d0) := Toward(g, source, target);
    target.team == source.team && d0 > 0.0 && d0 < PassRange
      && Dot(v0, g.angleToVec(source.dir)) > SameDirection
  }

  /** `targetable`. A human-controlled source skips the interception check;
      for a computer-controlled one the pass must also be unobstructed. */
  function Targetable(g: Geometry, target: Player, source: Player, players: seq<Player>, teams: seq<Team>): (r: bool)
    requires source.team < |teams|
    ensures target.team != source.team ==> !r
    ensures Toward(g, source, target).1 <= 0.0 ==> !r
    ensures Toward(g, source, target).1 >= PassRange ==> !r
    ensures teams[source.team].human ==> (r <==> OpenLane(g, target, source))
    ensures !teams[source.team].human ==>
      (r <==> OpenLane(g, target, source)
              && forall i :: 0 <= i < |players| ==> !Interceptor(g, target, source, players[i]))
  {
    if !teams[source.team].human && Intercepted(g, target, source, players) then false
    else OpenLane(g, target, source)
  }

  /** Adding players to the pool never turns a rejected pass into a sound one. */
  lemma MorePlayersNeverHelp(g: Geometry, target: Player, source: Player,
                             players: seq<Player>, extra: seq<Player>, teams: seq<Team>)
    requires source.team < |teams|
    ensures Targetable(g, target, source, players + extra, teams) ==>
            Targetable(g, target, source, players, teams)
  {
    if Targetable(g, target, source, players + extra, teams) && !teams[source.team].human {
      forall i | 0 <= i < |players|
        ensures !Interceptor(g, target, source, players[i])
      {
        assert (players + extra)[i] == players[i];
      }
    }
  }

  /** The verdict depends on which players are in the pool, not on their order. */
  lemma PoolOrderIrrelevant(g: Geometry, target: Player, source: Player,
                            players: seq<Player>, shuffled: seq<Player>, teams: seq<Team>)
    requires source.team < |teams|
    requires multiset(players) == multiset(shuffled)
    ensures Targetable(g, target, source, players, teams) == Targetable(g, target, source, shuffled, teams)
  {
    if !teams[source.team].human {
      forall i | 0 <= i < |players|
        ensures exists j :: 0 <= j < |shuffled| && shuffled[j] == players[i]
      {
        assert players[i] in multiset(shuffled);
      }
      forall j | 0 <= j < |shuffled|
        ensures exists i :: 0 <= i < |players| && players[i] == shuffled[j]
      {
        assert shuffled[j] in multiset(players);
      }
    }
  }

}

=== FILE: soccer_world.dfy ===
/**
 The static world of the soccer match: 2D vectors over `real` (the source uses
 `f32`; rounding is not modelled), the prelude constants as a configuration
 record with the ranges the game relies on, the pitch and goal bounds derived
 from them, and the entities the ball logic reads (players and teams).

 Trigonometry, normalisation and rectangle hit-testing live in code that is not
 part of this model; they are gathered in `Geometry`, a record of function
 values that every operation receives as a parameter, so nothing is assumed
 about them beyond their types.
 */
module SoccerWorld {
  import opened Options

  datatype Vec = Vec(x: real, y: real)

  function Sub(a: Vec, b: Vec): Vec { Vec(a.x - b.x, a.y - b.y) }

  function Scale(v: Vec, k: real): Vec { Vec(v.x * k, v.y * k) }

  /** The dot product nalgebra's `dot` computes for two 2D vectors. */
  function Dot(a: Vec, b: Vec): real { a.x * b.x + a.y * b.y }

  function Abs(r: real): real { if r < 0.0 then -r else r }

  function Min(a: real, b: real): real { if a <= b then a else b }

  function Max(a: real, b: real): real { if a <= b then b else a }

  /** The prelude constants the ball logic reads. */
  datatype Config = Config(
    drag: real,
    kickStrength: real,
    dribbleDistX: real,
    dribbleDistY: real,
    halfLevelW: real,
    halfLevelH: real,
    halfPitchW: real,
    halfPitchH: real,
    halfGoalW: real,
    goalWidth: real,
    goalDepth: real)

  /** The ranges the game's geometry relies on: drag damps, the goal mouth is
      no wider than the pitch, and the goals have non-negative depth. */
  predicate ValidConfig(c: Config) {
    && 0.0 < c.drag < 1.0
    && 0.0 <= c.dribbleDistX
    && 0.0 <= c.dribbleDistY
    && 0.0 <= c.halfGoalW <= c.halfPitchW
    && 0.0 < c.halfPitchH
    && 0.0 <= c.goalDepth
  }

  /** A sample configuration (the shipped values live in a prelude that is not
      part of this model); it witnesses that `ValidConfig` can be met. */
  function StandardConfig(): (c: Config)
    ensures ValidConfig(c)
    ensures c.kickStrength > 0.25
  {
    Config(0.98, 11.5, 18.0, 16.0, 500.0, 700.0, 442.0, 622.0, 93.0, 186.0, 20.0)
  }

  /** An axis interval `(lower, upper)`, the source's `(f32, f32)` pairs. */
  datatype Bounds = Bounds(lo: real, hi: real)

  predicate Within(v: real, b: Bounds) { b.lo <= v <= b.hi }

  function PitchBoundsX(c: Config): Bounds {
    Bounds(c.halfLevelW - c.halfPitchW, c.halfLevelW + c.halfPitchW)
  }

  function PitchBoundsY(c: Config): Bounds {
    Bounds(c.halfLevelH - c.halfPitchH, c.halfLevelH + c.halfPitchH)
  }

  /** The goal mouth, as an X interval: a sub-interval of the pitch width. */
  function GoalBoundsX(c: Config): (b: Bounds)
    ensures ValidConfig(c) ==> PitchBoundsX(c).lo <= b.lo <= b.hi <= PitchBoundsX(c).hi
  {
    Bounds(c.halfLevelW - c.halfGoalW, c.halfLevelW + c.halfGoalW)
  }

  /** The pitch length extended by both goals' depth: a super-interval of the
      pitch length. */
  function GoalBoundsY(c: Config): (b: Bounds)
    ensures ValidConfig(c) ==> b.lo <= PitchBoundsY(c).lo <= PitchBoundsY(c).hi <= b.hi
  {
    Bounds(c.halfLevelH - c.halfPitchH - c.goalDepth, c.halfLevelH + c.halfPitchH + c.goalDepth)
  }

  datatype Rect = Rect(left: real, top: real, width: real, height: real)

  function PitchRect(c: Config): Rect {
    Rect(PitchBoundsX(c).lo, PitchBoundsY(c).lo, c.halfPitchW * 2.0, c.halfPitchH * 2.0)
  }

  function Goal0Rect(c: Config): Rect {
    Rect(GoalBoundsX(c).lo, GoalBoundsY(c).lo, c.goalWidth, c.goalDepth)
  }

  function Goal1Rect(c: Config): Rect {
    Rect(GoalBoundsX(c).lo, GoalBoundsY(c).hi - c.goalDepth, c.goalWidth, c.goalDepth)
  }

  /** The collaborators whose code is not part of this model. `safeNormalise`
      returns a direction and a length; `collidePoint` is `Rect::collidepoint`. */
  datatype Geometry = Geometry(
    sin: real -> real,
    cos: real -> real,
    angleToVec: real -> Vec,
    safeNormalise: Vec -> (Vec, real),
    norm: Vec -> real,
    collidePoint: (Rect, real, real) -> bool)

  /** The legal area while dribbling: the pitch or either goal. */
  predicate OnPitch(g: Geometry, c: Config, x: real, y: real) {
    || g.collidePoint(PitchRect(c), x, y)
    || g.collidePoint(Goal0Rect(c), x, y)
    || g.collidePoint(Goal1Rect(c), x, y)
  }

  /** A footballer as the ball logic sees it: `timer` is the hold-off before
      the player may take the ball again (eligible only when negative). */
  datatype Player = Player(pos: Vec, dir: real, team: nat, timer: int)

  /** A team: whether a human controls it and its controllable player, an
      index into the player pool. */
  datatype Team = Team(human: bool, activeControl: Option<nat>)

}
